=== FILE: README.md ===
# Addon download, modelled in Dafny

A model of the `cloudquery addon download team/type/name@version [-t directory]` command
(`cli/cmd/addon_download.go`). The command does five things in order:

1. It parses the addon reference.
2. It resolves the team the request is scoped to, based on the kind of auth token in use.
3. It asks the CloudQuery Hub for the addon's download location and checksum.
4. It fetches the location.
5. It streams the body into standard output or into a new file. While it streams, it computes
   the SHA-256 of the same bytes. It keeps the file only if the lower-case hex digest equals the
   registry's checksum.

Everything is modelled with immutable datatypes and pure functions:

- `wrappers.dfy`: `Option`, `Result` and `Outcome`, in place of Go's `(value, error)` returns.
- `errors.dfy`: one `Error` constructor per error the command returns. Each one carries the
  values its message formats, except the operating-system errors listed under "Left out".
- `strings.dfy`: `strings.Split` with a one-character separator, and `strings.Join`.
- `bytes.dfy`: the byte type.
- `hex.dfy`: the `%x` rendering of bytes.
- `paths.dfy`: `path.Base`, `path.Clean`, and `filepath.Join`, which joins with a slash and then cleans.
- `addon_ref.dfy`: the reference parser.
- `team.dfy`: `getTeamForAnyToken`.
- `gates.dfy`: the status checks on the metadata response and on the download response.
- `transfer.dfy`: `downloadAddonFromResponse`. It works over an explicit `World`, which holds a
  filesystem map from path to file or directory, standard output, and the "Wrote N bytes"
  lines on standard error.
- `addon_download.dfy`: `runAddonDownload`, which composes all of the above.

Whatever the command gets from outside is an input (`Env`):

- the token and its type;
- whether the hub client could be built;
- the `team` config value and its error;
- the API key's team list;
- the registry's metadata responses, as a function of the request;
- the download responses, as a function of the location;
- SHA-256, as a function parameter `sha`;
- which file-system and stream operations fail (`Faults`).

## Model

| member | source | states |
|---|---|---|
| GoStrings.Split | cli/cmd/addon_download.go:70-74 | `strings.Split` on one character: one more piece than separators, no piece holds the separator, and joining the pieces with it gives back the input |
| GoStrings.SplitJoin | cli/cmd/addon_download.go:70-74 | splitting undoes joining when no piece holds the separator |
| GoStrings.JoinNamesEveryPart | cli/cmd/addon_download.go:143 | every team occurs, as a substring, in the ", "-joined listing of the "more than one team" error |
| References.ParseAddonRef | cli/cmd/addon_download.go:70-80 | a parsed reference has no `/` in any field, no `@` in name or version, a version starting with `v`, and re-joins as `team/type/name@version` into exactly the argument; "invalid addon ref" exactly when the argument does not hold two `/`; "no version specified" exactly when the third segment does not hold one `@`; no other error |
| References.ParseFormat | cli/cmd/addon_download.go:70-80 | every valid reference, written out, parses back to itself |
| References.ParseAcceptsExactlyFormatted | cli/cmd/addon_download.go:70-80 | an argument parses if and only if it is some valid reference written out |
| References.ParsesEmptySegments | cli/cmd/addon_download.go:70-80 | `//@v` parses to empty team, type and name: nothing checks that segments are non-empty |
| References.RejectsFourSegments | cli/cmd/addon_download.go:70-73 | a fourth `/` segment gives "invalid addon ref" |
| References.RejectsMissingVersion | cli/cmd/addon_download.go:74-77 | a third segment without `@` gives "no version specified" |
| References.RejectsTwoVersions | cli/cmd/addon_download.go:74-77 | for any slash-free segments, a third segment with two `@` also gives "no version specified" |
| References.RejectsVersionWithoutV | cli/cmd/addon_download.go:78-80 | for any three slash-free segments and one `@`, a version not starting with `v` gives "version must start with 'v'" |
| Teams.GetTeamForAnyToken | cli/cmd/addon_download.go:121-148 | bearer token: a config error other than not-exist is reported, an empty team is "team is required", otherwise the configured team is returned unchanged; API key: a listing error is passed on, no team and several teams are errors (the latter carrying the teams joined with ", " in order, so it names every team), one team is returned; any other token type is "unknown token type"; a returned team always comes from the input its token type consults |
| Teams.NotExistIsLikeUnset | cli/cmd/addon_download.go:124-130 | a not-exist config error with no value gives the same "team is required" as an empty value with no error |
| Gates.GetAddonMetadata | cli/cmd/addon_download.go:150-160 | the location and checksum come back exactly when the call completed with status at most 299 and a `JSON200` body, and they are that body's fields; a transport error and every other response are distinct errors |
| Gates.CheckDownload | cli/cmd/addon_download.go:106-116 | the response is passed on exactly when the request was built, completed, and had status at most 399; the three failures are distinct errors, the status failure naming status and location |
| Gates.MetadataGateIsStricter | cli/cmd/addon_download.go:156-159 | every status the metadata check accepts, the download check (line 114) accepts too; statuses 300-399 pass the download check but fail the metadata check |
| HexEncoding.Hex | cli/cmd/addon_download.go:209 | `%x` of the digest is two characters per byte, each a lower-case hex digit |
| HexEncoding.UnhexHex | cli/cmd/addon_download.go:209 | the `%x` rendering can be read back into the digest bytes |
| HexEncoding.HexInjective | cli/cmd/addon_download.go:209-210 | two renderings are equal exactly when the digests are, so comparing checksum strings compares digests |
| HexEncoding.HexHasNoUpperCase | cli/cmd/addon_download.go:209-210 | no rendering holds an upper-case letter |
| Paths.Base | cli/cmd/addon_download.go:173 | `path.Base`: never empty, "." for the empty path, "/" exactly for a path of slashes only, otherwise free of slashes |
| Paths.BaseOfName | cli/cmd/addon_download.go:173 | a slash-free file name is its own base, also after being joined under a directory |
| Paths.BaseOfLastSegment | cli/cmd/addon_download.go:173 | the base of a path is its last element, whatever comes before the final slash, so `/foo.zip` gives `foo.zip` |
| Paths.Clean | cli/cmd/addon_download.go:173 | `path.Clean`, applied by `filepath.Join`: never empty, "." for the empty path, rooted exactly when the input is |
| Paths.CleanDropsParent | cli/cmd/addon_download.go:173 | an inner ".." removes exactly the one element before it: a directory, a name and ".." clean back to the cleaned directory |
| Paths.CleanOfRelative | cli/cmd/addon_download.go:173 | a relative path written from clean elements is left unchanged by cleaning |
| Paths.CleanOfRooted | cli/cmd/addon_download.go:173 | a rooted path written from clean elements is left unchanged by cleaning |
| Paths.CleanIdempotent | cli/cmd/addon_download.go:173 | cleaning a cleaned path changes nothing |
| Paths.CleanJoinName | cli/cmd/addon_download.go:173 | a file name joined under a directory is the cleaned directory with the name appended; under "." it is the bare name |
| Paths.CleanIgnoresDotAndSlash | cli/cmd/addon_download.go:173 | joining "." or "/" under a directory gives the directory itself |
| Paths.BaseIgnoresTrailingSlash | cli/cmd/addon_download.go:173 | a trailing slash does not change the base of a non-empty path |
| Transfer.Copy | cli/cmd/addon_download.go:196-201 | the single read-then-write pass into the sink and the digest: the sink receives the body up to the copy fault; the digest receives a prefix of what the sink received, and the whole body when the copy succeeds |
| Transfer.DownloadAddonFromResponse | cli/cmd/addon_download.go:162-215 | an existing destination is refused, reporting whether it is a directory, and nothing changes; success exactly when the sink opens, no copy or close fails, and the `%x` of the digest of the body equals the expected checksum; which error otherwise, in source order; once the sink is open and nothing failed, a digest that differs from the expected checksum gives the checksum-mismatch error carrying the expected and the computed value, for both targets and whether or not the removal fails; a committed file holds exactly the body and its size is reported; any failure after the file was created leaves the world as it was unless the removal fails, and then only the bytes that reached the file are left; the `-` target touches no file, reports nothing, and gets the body up to the copy fault appended |
| Transfer.CommittedFileMatchesChecksum | cli/cmd/addon_download.go:196-212 | after a committed file download, the file's own `%x` digest equals the expected checksum |
| Transfer.UpperCaseChecksumNeverCommits | cli/cmd/addon_download.go:209-212 | the comparison is case-sensitive: an expected checksum with an upper-case letter never commits |
| Transfer.SecondDownloadRefused | cli/cmd/addon_download.go:173-179 | downloading the same URL into the same directory again fails with "already exists" (not a directory) and changes nothing |
| Transfer.RetryAfterRollback | cli/cmd/addon_download.go:187-193 | after a rolled-back download the destination is as free as before, and a retry behaves exactly like a first attempt |
| Transfer.MismatchRemovesFile | cli/cmd/addon_download.go:187-212 | once the file is created, a digest that differs from the expected checksum fails with both values and, when the removal succeeds, leaves no file at the destination |
| Transfer.DirectoryURLRefused | cli/cmd/addon_download.go:173-176 | a URL path that is empty, only slashes, or whose last element is "." names the target directory itself, so an existing target directory refuses the download as "is a directory" and nothing changes |
| Transfer.DestinationIsNameInDirectory | cli/cmd/addon_download.go:173 | a URL path ending in a file name writes that name into the cleaned target directory |
| Transfer.StdoutIgnoresFilesystem | cli/cmd/addon_download.go:169-171 | the `-` target skips the existence check: its outcome is the same whatever the filesystem holds |
| AddonDownload.RunAddonDownload | cli/cmd/addon_download.go:63-119 | the first stage that fails decides the command's error, and the world is left as it was: a token, parse, client or team error stops the command before the metadata request; a metadata error after the metadata request only; a download-gate error after both the metadata request and the download request (the trace records only these two calls, not the team listing an API key makes); an accepted download response is written out exactly as `downloadAddonFromResponse` does with the registry's checksum, so a failed command into a directory leaves the world as it was unless the removal fails; the metadata request carries the resolved team and the reference's team, type, name and version in that order, which re-join into the argument; the download goes to the location the metadata returned; nothing is written before a download response passes its status check; success implies the body's digest matched the registry's checksum and, for a directory target, the file holds exactly the body |
| AddonDownload.SucceedsWhenEverythingChecksOut | cli/cmd/addon_download.go:63-119 | a valid reference, a resolvable team, accepted responses, no failing operation, a free destination and a matching digest make the command succeed |

## Left out

- The SIGTERM listener that cancels the context (lines 44-53) is not modelled: it is concurrency
  and OS signals. A cancellation surfaces as a transport error or a copy fault, and both are inputs.
- Getting the token, building the hub client and the Authorization header editor (lines 64-68,
  82-89) call into libraries that are not part of this model. Their results are inputs.
- Reading the `target` flag (lines 91-94) cannot fail, because the flag is declared at line 58.
  The target directory is a parameter.
- The text of the error messages, including `%q` quoting, is not modelled. Each error is a
  constructor carrying the values its message formats, with one exception, covered next.
- The operating-system errors that the code wraps with `%w` are not carried. This covers
  `os.Create`'s error at line 183 (`CreateFailed` carries the path instead), the copy error at
  line 200 (`WriteFailed`), the close error at line 203 (`CloseFailed`) and the body-close error
  at line 206 (`BodyCloseFailed`). Whether those operations fail is an input (`Faults`), and
  their causes are not.
- `errorFromHTTPResponse` (line 157) is not part of this model. A rejected metadata response
  carries only its status.
- Paths are compared as strings once cleaned. Symbolic links, and anything else the operating
  system resolves beyond `path.Clean`'s lexical rules, are not modelled. Only the Unix `/`
  separator is modelled.
- `os.Stat` errors other than "does not exist" are not distinguished. The code treats them like
  absence and goes on to `os.Create`, and the model does the same, because `Faults.createFails`
  covers the resulting create failure.
- SHA-256 itself is a function parameter. Nothing is assumed about it beyond being a function
  of the bytes.
- How the body is split into reads is an input (`Response.chunks`). Which operations fail is an
  oracle (`Faults`).
- Closing standard output (line 202 closes `os.Stdout` for the `-` target) is not tracked as state.
- Which response bodies get closed is not tracked. The code leaves the body open on most error
  paths: when the status check fails (line 115), when the destination already exists (lines 176
  and 178), when the file cannot be created (line 183), when the copy fails (line 200) and when
  closing the sink fails (line 203).
- The reference parser does not check that the team, type or name are non-empty, and
  `References.ParsesEmptySegments` states this.
- For a bearer token, the code first reports any config error other than not-exist (line 125),
  and only then refuses an empty team. A not-exist error that comes with a non-empty value is
  accepted. `Teams.GetTeamForAnyToken` states this.
- `cmd/provider.go`, `plugins/source/aws/client/services/cloudwatchlogs.go` and
  `website/next-sitemap.config.js` are not modelled. They are command wiring, a generated
  interface and site configuration, and hold none of the download logic.

=== FILE: addon_download.dfy ===
/** `runAddonDownload` (cli/cmd/addon_download.go:63-119): the whole command, composed from the
    reference parser, the team resolver, the two response gates and the transfer. Everything the
    command gets from outside (the token, the hub client, the config, the registry, the
    download server, SHA-256 and the operating system's failures) is part of `Env`. */
module AddonDownload {
  import opened Wrappers
  import opened Bytes
  import opened HexEncoding
  import opened Errors
  import opened References
  import opened Teams
  import opened Gates
  import opened Transfer

  datatype Env = Env(
    token: Result<TokenType, string>,             // the auth token's type, or why there is none
    clientError: Option<string>,                   // why the hub client could not be built
    config: ConfigLookup,                          // the configured team
    teams: Result<seq<string>, string>,            // the API key's teams
    metadata: MetadataRequest -> MetadataCall,     // the registry's metadata endpoint
    download: string -> DownloadCall,              // fetching a location
    faults: Faults,                                // which file and stream operations fail
    sha: seq<byte> -> seq<byte>)                   // SHA-256

  /** The calls made to the outside: the metadata request and the location downloaded, if any. */
  datatype Trace = Trace(metadataRequest: Option<MetadataRequest>, downloadLocation: Option<string>)

  datatype Run = Run(world: World, outcome: Outcome<Error>, trace: Trace)

  /** The metadata request for a parsed reference, scoped to the resolved team (line 101). */
  function MetadataRequestFor(currentTeam: string, ref: AddonRef): MetadataRequest
  {
    MetadataRequest(currentTeam, ref.team, ref.kind, ref.name, ref.version, AcceptJson)
  }

  /** The reference a metadata request asks for. */
  function RequestedRef(req: MetadataRequest): AddonRef
  {
    AddonRef(req.addonTeam, req.addonType, req.addonName, req.addonVersion)
  }

  /** The command gets as far as resolving the team: it has a token, the argument parses and
      the hub client was built (lines 64-89). */
  predicate ReachesTeam(env: Env, arg: string)
  {
    env.token.Success? && ParseAddonRef(arg).Success? && env.clientError.None?
  }

  /** The team the command resolves (line 96). */
  function TeamOf(env: Env, arg: string): Result<string, Error>
    requires ReachesTeam(env, arg)
  {
    GetTeamForAnyToken(env.token.value, env.config, env.teams)
  }

  /** The command gets as far as asking for the addon's metadata (line 101). */
  predicate ReachesMetadata(env: Env, arg: string)
  {
    ReachesTeam(env, arg) && TeamOf(env, arg).Success?
  }

  /** The metadata request the command sends. */
  function RequestOf(env: Env, arg: string): MetadataRequest
    requires ReachesMetadata(env, arg)
  {
    MetadataRequestFor(TeamOf(env, arg).value, ParseAddonRef(arg).value)
  }

  /** What the metadata lookup gives back (lines 101-104). */
  function AssetOf(env: Env, arg: string): Result<AddonAsset, Error>
    requires ReachesMetadata(env, arg)
  {
    GetAddonMetadata(env.metadata(RequestOf(env, arg)))
  }

  /** The command gets as far as fetching the download location (line 106). */
  predicate ReachesDownload(env: Env, arg: string)
  {
    ReachesMetadata(env, arg) && AssetOf(env, arg).Success?
  }

  /** What the download gate gives back (lines 106-116). */
  function ResponseOf(env: Env, arg: string): Result<Response, Error>
    requires ReachesDownload(env, arg)
  {
    CheckDownload(env.download(AssetOf(env, arg).value.location), AssetOf(env, arg).value.location)
  }

  /** Runs the command on its one argument `arg` with destination `targetDir`, first error
      wins. Nothing is written before a download response is accepted; the metadata request
      carries the resolved team and the reference's fields in order, which re-join into `arg`;
      and success means the body's digest matched the registry's checksum, with the file
      holding exactly the body when one was written. */
  function RunAddonDownload(env: Env, arg: string, targetDir: string, w: World): (o: Run)
    ensures env.token.Failure? ==>
              o == Run(w, Fail(TokenFailed(env.token.error)), Trace(None, None))
    ensures env.token.Success? && ParseAddonRef(arg).Failure? ==>
              o == Run(w, Fail(ParseAddonRef(arg).error), Trace(None, None))
    ensures env.token.Success? && ParseAddonRef(arg).Success? && env.clientError.Some? ==>
              o == Run(w, Fail(ClientFailed(env.clientError.value)), Trace(None, None))
    // each later stage's error is the command's error, and nothing is written
    ensures ReachesTeam(env, arg) && TeamOf(env, arg).Failure? ==>
              o == Run(w, Fail(TeamOf(env, arg).error), Trace(None, None))
    ensures ReachesMetadata(env, arg) && AssetOf(env, arg).Failure? ==>
              o == Run(w, Fail(AssetOf(env, arg).error), Trace(Some(RequestOf(env, arg)), None))
    ensures ReachesDownload(env, arg) && ResponseOf(env, arg).Failure? ==>
              && o.world == w
              && o.outcome == Fail(ResponseOf(env, arg).error)
              && o.trace == Trace(Some(RequestOf(env, arg)), Some(AssetOf(env, arg).value.location))
    // an accepted download response is written out with the registry's checksum
    ensures ReachesDownload(env, arg) && ResponseOf(env, arg).Success? ==>
              var d := DownloadAddonFromResponse(w, ResponseOf(env, arg).value,
                                                 AssetOf(env, arg).value.checksum,
                                                 targetDir, env.faults, env.sha);
              o.world == d.world && o.outcome == d.outcome
    // a failed command into a directory leaves the world as it was, unless removal fails
    ensures targetDir != StdoutTarget && o.outcome.Fail? && !env.faults.removeFails ==> o.world == w
    ensures o.trace.metadataRequest.Some? ==>
              && ParseAddonRef(arg).Success?
              && env.token.Success? && env.clientError.None?
              && GetTeamForAnyToken(env.token.value, env.config, env.teams)
                   == Success(o.trace.metadataRequest.value.currentTeam)
              && RequestedRef(o.trace.metadataRequest.value) == ParseAddonRef(arg).value
              && Format(RequestedRef(o.trace.metadataRequest.value)) == arg
    ensures o.trace.downloadLocation.Some? ==>
              && o.trace.metadataRequest.Some?
              && GetAddonMetadata(env.metadata(o.trace.metadataRequest.value))
                   .Success?
              && o.trace.downloadLocation.value
                   == GetAddonMetadata(env.metadata(o.trace.metadataRequest.value)).value.location
    ensures o.world != w ==>
              && o.trace.downloadLocation.Some?
              && CheckDownload(env.download(o.trace.downloadLocation.value),
                               o.trace.downloadLocation.value).Success?
    ensures o.outcome.Pass? ==>
              && o.trace.downloadLocation.Some?
              && var asset := GetAddonMetadata(env.metadata(o.trace.metadataRequest.value)).value;
                 var call := env.download(asset.location);
                 && call.DownloadResponse? && call.status <= MaxDownloadStatus
                 && Hex(env.sha(Body(call.chunks))) == asset.checksum
                 && var path := Destination(targetDir, Response(call.urlPath, call.chunks));
                    (targetDir != StdoutTarget ==>
                       path in o.world.fs && o.world.fs[path] == File(Body(call.chunks)))
  {
    match env.token
    case Failure(cause) => Run(w, Fail(TokenFailed(cause)), Trace(None, None))
    case Success(tokenType) =>
      match ParseAddonRef(arg)
      case Failure(e) => Run(w, Fail(e), Trace(None, None))
      case Success(ref) =>
        if env.clientError.Some? then
          Run(w, Fail(ClientFailed(env.clientError.value)), Trace(None, None))
        else
          match GetTeamForAnyToken(tokenType, env.config, env.teams)
          case Failure(e) => Run(w, Fail(e), Trace(None, None))
          case Success(team) =>
            var req := MetadataRequestFor(team, ref);
            match GetAddonMetadata(env.metadata(req))
            case Failure(e) => Run(w, Fail(e), Trace(Some(req), None))
            case Success(asset) =>
              var trace := Trace(Some(req), Some(asset.location));
              match CheckDownload(env.download(asset.location), asset.location)
              case Failure(e) => Run(w, Fail(e), trace)
              case Success(res) =>
                var d := DownloadAddonFromResponse(w, res, asset.checksum, targetDir, env.faults, env.sha);
                Run(d.world, d.outcome, trace)
  }

  /** The converse of the success clause: a well-formed reference, a resolvable team, an
      accepted metadata and download response, no failing operation, a free destination and a
      matching digest make the command succeed. */
  lemma SucceedsWhenEverythingChecksOut(env: Env, ref: AddonRef, targetDir: string, w: World)
    requires Valid(ref)
    requires env.token.Success? && env.clientError.None?
    requires GetTeamForAnyToken(env.token.value, env.config, env.teams).Success?
    requires var team := GetTeamForAnyToken(env.token.value, env.config, env.teams).value;
             GetAddonMetadata(env.metadata(MetadataRequestFor(team, ref))).Success?
    requires var team := GetTeamForAnyToken(env.token.value, env.config, env.teams).value;
             var asset := GetAddonMetadata(env.metadata(MetadataRequestFor(team, ref))).value;
             var call := env.download(asset.location);
             && call.DownloadResponse? && call.status <= MaxDownloadStatus
             && SinkOpened(w, Response(call.urlPath, call.chunks), targetDir, env.faults)
             && Hex(env.sha(Body(call.chunks))) == asset.checksum
    requires env.faults.copyFault.None? && !env.faults.sinkCloseFails && !env.faults.bodyCloseFails
    ensures RunAddonDownload(env, Format(ref), targetDir, w).outcome.Pass?
  {
    ParseFormat(ref);
  }
}

=== FILE: addon_ref.dfy ===
/** The addon reference `team/type/name@version` given as the command's one argument
    (cli/cmd/addon_download.go:70-80). */
module References {
  import opened Wrappers
  import opened GoStrings
  import opened Errors

  datatype AddonRef = AddonRef(team: string, kind: string, name: string, version: string)

  /** The reference written out the way the command expects it. */
  function Format(r: AddonRef): string
  {
    r.team + "/" + r.kind + "/" + r.name + "@" + r.version
  }

  /** A reference the parser can produce: no field holds a `/`, the name and version hold no
      `@`, and the version starts with `v`. Empty fields are allowed: nothing checks them. */
  predicate Valid(r: AddonRef)
  {
    && '/' !in r.team && '/' !in r.kind && '/' !in r.name && '/' !in r.version
    && '@' !in r.name && '@' !in r.version
    && "v" <= r.version
  }

  /** Splits the argument on `/` into exactly three parts, the third on `@` into exactly two,
      and requires the version to start with `v`; each failure has its own error. A parsed
      reference re-joins into exactly the argument it came from. */
  function ParseAddonRef(arg: string): (r: Result<AddonRef, Error>)
    ensures r.Success? ==> Valid(r.value) && Format(r.value) == arg
    ensures r == Failure(InvalidRef(arg)) <==> Count(arg, '/') != 2
    ensures r == Failure(NoVersionSpecified(arg)) <==>
              Count(arg, '/') == 2 && Count(Split(arg, '/')[2], '@') != 1
    ensures r.Failure? ==>
              r.error in {InvalidRef(arg), NoVersionSpecified(arg), VersionMustStartWithV(arg)}
  {
    var parts := Split(arg, '/');
    if |parts| != 3 then Failure(InvalidRef(arg))
    else
      var ver := Split(parts[2], '@');
      if |ver| != 2 then Failure(NoVersionSpecified(arg))
      else if !("v" <= ver[1]) then Failure(VersionMustStartWithV(arg))
      else
        assert parts[2] == ver[0] + "@" + ver[1] by {
          assert Join(ver, "@") == ver[0] + "@" + Join(ver[1..], "@");
        }
        assert arg == parts[0] + "/" + parts[1] + "/" + parts[2] by {
          assert Join(parts, "/") == parts[0] + "/" + Join(parts[1..], "/");
          assert Join(parts[1..], "/") == parts[1] + "/" + Join(parts[2..], "/");
        }
        Success(AddonRef(parts[0], parts[1], ver[0], ver[1]))
  }

  /** Every valid reference survives formatting and parsing. */
  lemma ParseFormat(r: AddonRef)
    requires Valid(r)
    ensures ParseAddonRef(Format(r)) == Success(r)
  {
    var third := r.name + "@" + r.version;
    var ver := [r.name, r.version];
    assert Join(ver, "@") == third by {
      assert Join(ver[1..], "@") == r.version;
    }
    SplitJoin(ver, '@');
    var parts := [r.team, r.kind, third];
    assert Join(parts, "/") == Format(r) by {
      assert Join(parts[2..], "/") == third;
      assert Join(parts[1..], "/") == r.kind + "/" + third;
    }
    SplitJoin(parts, '/');
  }

  /** The parser accepts exactly the formatted valid references. */
  lemma ParseAcceptsExactlyFormatted(arg: string)
    ensures ParseAddonRef(arg).Success? <==> exists r :: Valid(r) && Format(r) == arg
  {
    if exists r :: Valid(r) && Format(r) == arg {
      var r :| Valid(r) && Format(r) == arg;
      ParseFormat(r);
    }
  }

  /** Empty team, type and name are accepted: only the segment counts and the `v` are checked. */
  lemma ParsesEmptySegments()
    ensures ParseAddonRef("//@v") == Success(AddonRef("", "", "", "v"))
  {
    ParseFormat(AddonRef("", "", "", "v"));
    assert Format(AddonRef("", "", "", "v")) == "//@v";
  }

  /** A fourth segment makes the reference invalid, whatever follows. */
  lemma RejectsFourSegments()
    ensures ParseAddonRef("t/k/n/x@v1") == Failure(InvalidRef("t/k/n/x@v1"))
  {
  }

  /** A third segment without `@` has no version. */
  lemma RejectsMissingVersion()
    ensures ParseAddonRef("t/k/n") == Failure(NoVersionSpecified("t/k/n"))
  {
  }

  /** A second `@` also counts as no version, whatever the segments hold. */
  lemma RejectsTwoVersions(team: string, kind: string, name: string, v1: string, v2: string)
    requires '/' !in team && '/' !in kind && '/' !in name && '/' !in v1 && '/' !in v2
    requires '@' !in name && '@' !in v1 && '@' !in v2
    ensures var arg := team + "/" + kind + "/" + name + "@" + v1 + "@" + v2;
            ParseAddonRef(arg) == Failure(NoVersionSpecified(arg))
  {
    var ver := [name, v1, v2];
    var third := name + "@" + v1 + "@" + v2;
    assert Join(ver, "@") == third by {
      assert Join(ver[1..], "@") == v1 + "@" + v2 by {
        assert Join(ver[2..], "@") == v2;
      }
    }
    SplitJoin(ver, '@');
    var parts := [team, kind, third];
    assert '/' !in third;
    assert Join(parts, "/") == team + "/" + kind + "/" + name + "@" + v1 + "@" + v2 by {
      assert Join(parts[2..], "/") == third;
      assert Join(parts[1..], "/") == kind + "/" + third;
    }
    SplitJoin(parts, '/');
  }

  /** A version without the leading `v` is refused once the segment counts pass, whatever
      the segments hold. */
  lemma RejectsVersionWithoutV(team: string, kind: string, name: string, version: string)
    requires '/' !in team && '/' !in kind && '/' !in name && '/' !in version
    requires '@' !in name && '@' !in version
    requires !("v" <= version)
    ensures var arg := team + "/" + kind + "/" + name + "@" + version;
            ParseAddonRef(arg) == Failure(VersionMustStartWithV(arg))
  {
    var ver := [name, version];
    var third := name + "@" + version;
    assert Join(ver, "@") == third by {
      assert Join(ver[1..], "@") == version;
    }
    SplitJoin(ver, '@');
    var parts := [team, kind, third];
    assert '/' !in third;
    assert Join(parts, "/") == team + "/" + kind + "/" + name + "@" + version by {
      assert Join(parts[2..], "/") == third;
      assert Join(parts[1..], "/") == kind + "/" + third;
    }
    SplitJoin(parts, '/');
  }
}

=== FILE: bytes.dfy ===
/** Bytes, as read from a response body, written to a file, and fed to the digest. */
module Bytes {

  type byte = x: int | 0 <= x < 256
}

=== FILE: errors.dfy ===
/** Every error `addon download` can return, one constructor per `return` of an error in
    cli/cmd/addon_download.go, carrying the values its message formats. The operating-system
    errors wrapped at lines 183, 200, 203 and 206 are not carried: whether those calls fail is
    an input, and their causes are not. */
module Errors {

  datatype Error =
      // getting the auth token failed (line 67)
    | TokenFailed(cause: string)
      // the reference does not split into three `/` segments (line 72)
    | InvalidRef(ref: string)
      // the third segment does not split into two `@` parts (line 76)
    | NoVersionSpecified(ref: string)
      // the version does not start with `v` (line 79)
    | VersionMustStartWithV(ref: string)
      // the hub client could not be built (line 88)
    | ClientFailed(cause: string)
      // reading the `team` config value failed for a reason other than not-exist (line 126)
    | ConfigReadFailed(cause: string)
      // a bearer token with no configured team (line 129)
    | TeamRequired
      // listing the API key's teams failed; the error is returned as is (line 135)
    | TeamListFailed(cause: string)
      // an API key with no team (line 139)
    | NoAssignedTeam
      // an API key with several teams; `listed` is the teams joined by ", " (line 143)
    | MoreThanOneTeam(listed: string)
      // a token type that is neither a bearer token nor an API key (line 146)
    | UnknownTokenType(code: int)
      // the metadata request did not complete (line 154)
    | MetadataRequestFailed(cause: string)
      // the metadata response has a status above 299 or no JSON body (line 157)
    | MetadataReadFailed(status: int)
      // the download request could not be built (line 108)
    | RequestCreateFailed(cause: string)
      // the download request did not complete (line 112)
    | DownloadRequestFailed(cause: string)
      // the download response has a status above 399 (line 115)
    | DownloadStatusFailed(status: int, location: string)
      // something already exists at the destination path (lines 176, 178)
    | DestinationExists(path: string, isDirectory: bool)
      // the destination file could not be created (line 183)
    | CreateFailed(path: string)
      // copying the body into the sink failed (line 200)
    | WriteFailed
      // closing the sink failed (line 203)
    | CloseFailed
      // closing the response body failed (line 206)
    | BodyCloseFailed
      // the digest of the written bytes differs from the registry's checksum (line 211)
    | ChecksumMismatch(expected: string, got: string)
}

=== FILE: gates.dfy ===
/** The two registry responses the command checks before it writes anything: the metadata
    lookup `getAddonMetadata` (cli/cmd/addon_download.go:150-160) and the download response
    (lines 106-116). The HTTP calls themselves are inputs: what they returned is a value. */
module Gates {
  import opened Wrappers
  import opened Bytes
  import opened Errors
  import opened Transfer

  /** The `JSON200` body of a metadata response: where to download and the expected checksum. */
  datatype AddonAsset = AddonAsset(location: string, checksum: string)

  /** The metadata request: the caller's team, then the addon's team, type, name and version. */
  datatype MetadataRequest = MetadataRequest(currentTeam: string, addonTeam: string, addonType: string,
                                             addonName: string, addonVersion: string, accept: string)

  /** The representation the metadata request asks for (line 151). */
  const AcceptJson: string := "application/json"

  /** What the metadata call returned: a transport error, or a status with an optional decoded
      `JSON200` body. */
  datatype MetadataCall =
    | MetadataTransportError(cause: string)
    | MetadataResponse(status: int, json200: Option<AddonAsset>)

  /** What the download call returned: the request could not be built, it did not complete, or
      a response with its status, final URL path and body. */
  datatype DownloadCall =
    | RequestInvalid(cause: string)
    | DownloadTransportError(cause: string)
    | DownloadResponse(status: int, urlPath: string, chunks: seq<seq<byte>>)

  /** Highest status the metadata lookup accepts (line 156). */
  const MaxMetadataStatus: int := 299

  /** Highest status the download accepts (line 114). */
  const MaxDownloadStatus: int := 399

  /** The asset comes back only from a completed call with a status of at most 299 and a JSON
      body; a transport error and every other response are errors of their own. */
  function GetAddonMetadata(call: MetadataCall): (r: Result<AddonAsset, Error>)
    ensures r.Success? <==>
              call.MetadataResponse? && call.status <= MaxMetadataStatus && call.json200.Some?
    ensures r.Success? ==> call.json200 == Some(r.value)
    ensures call.MetadataTransportError? ==> r == Failure(MetadataRequestFailed(call.cause))
    ensures call.MetadataResponse? && r.Failure? ==> r == Failure(MetadataReadFailed(call.status))
  {
    match call
    case MetadataTransportError(cause) => Failure(MetadataRequestFailed(cause))
    case MetadataResponse(status, json200) =>
      if status > MaxMetadataStatus || json200.None? then Failure(MetadataReadFailed(status))
      else Success(json200.value)
  }

  /** The download response goes on to be written only when the request was built, completed,
      and answered with a status of at most 399; the response keeps its URL path and body. */
  function CheckDownload(call: DownloadCall, location: string): (r: Result<Response, Error>)
    ensures r.Success? <==> call.DownloadResponse? && call.status <= MaxDownloadStatus
    ensures r.Success? ==> r.value == Response(call.urlPath, call.chunks)
    ensures call.RequestInvalid? ==> r == Failure(RequestCreateFailed(call.cause))
    ensures call.DownloadTransportError? ==> r == Failure(DownloadRequestFailed(call.cause))
    ensures call.DownloadResponse? && r.Failure? ==>
              r == Failure(DownloadStatusFailed(call.status, location))
  {
    match call
    case RequestInvalid(cause) => Failure(RequestCreateFailed(cause))
    case DownloadTransportError(cause) => Failure(DownloadRequestFailed(cause))
    case DownloadResponse(status, urlPath, chunks) =>
      if status > MaxDownloadStatus then Failure(DownloadStatusFailed(status, location))
      else Success(Response(urlPath, chunks))
  }

  /** The two gates differ: a 3xx status is refused for metadata and let through for the
      download, and every status the metadata gate accepts the download gate accepts too. */
  lemma MetadataGateIsStricter(status: int, asset: AddonAsset, urlPath: string,
                               chunks: seq<seq<byte>>, location: string)
    ensures GetAddonMetadata(MetadataResponse(status, Some(asset))).Success? ==>
              CheckDownload(DownloadResponse(status, urlPath, chunks), location).Success?
    ensures 300 <= status <= 399 ==>
              && GetAddonMetadata(MetadataResponse(status, Some(asset))).Failure?
              && CheckDownload(DownloadResponse(status, urlPath, chunks), location).Success?
  {
  }
}

=== FILE: hex.dfy ===
/** The lower-case hexadecimal rendering `fmt.Sprintf("%x", digest)` gives them
    (cli/cmd/addon_download.go:209). */
module HexEncoding {
  import opened Wrappers
  import opened Bytes

  /** One of the sixteen digits `%x` writes: `0`-`9` and lower-case `a`-`f`. */
  predicate IsHexDigit(c: char)
  {
    '0' <= c <= '9' || 'a' <= c <= 'f'
  }

  /** The digit `%x` writes for a nibble. */
  function Digit(n: nat): (c: char)
    requires n < 16
    ensures IsHexDigit(c)
  {
    if n < 10 then ('0' as int + n) as char else ('a' as int + n - 10) as char
  }

  /** `%x` of a byte slice: two lower-case digits per byte, high nibble first. */
  function Hex(bs: seq<byte>): (h: string)
    ensures |h| == 2 * |bs|
    ensures forall i :: 0 <= i < |h| ==> IsHexDigit(h[i])
  {
    if bs == [] then ""
    else [Digit(bs[0] / 16), Digit(bs[0] % 16)] + Hex(bs[1..])
  }

  /** The value of one lower-case hex digit; upper-case letters are not digits here. */
  function DigitValue(c: char): (v: Option<nat>)
    ensures v.Some? <==> IsHexDigit(c)
    ensures v.Some? ==> v.value < 16 && Digit(v.value) == c
  {
    if '0' <= c <= '9' then Some(c as int - '0' as int)
    else if 'a' <= c <= 'f' then Some(c as int - 'a' as int + 10)
    else None
  }

  /** The byte whose high and low nibbles are `hi` and `lo`. */
  function ByteOf(hi: nat, lo: nat): byte
    requires hi < 16 && lo < 16
  {
    hi * 16 + lo
  }

  /** Reads back a string of lower-case hex digit pairs; `None` for anything else. */
  function Unhex(h: string): Option<seq<byte>>
    decreases |h|
  {
    if h == [] then Some([])
    else if |h| < 2 then None
    else
      var hi := DigitValue(h[0]);
      var lo := DigitValue(h[1]);
      var rest := Unhex(h[2..]);
      if hi.None? || lo.None? || rest.None? then None
      else Some([ByteOf(hi.value, lo.value)] + rest.value)
  }

  /** `DigitValue` reads back the digit written for a nibble. */
  lemma DigitRoundTrip(n: nat)
    requires n < 16
    ensures DigitValue(Digit(n)) == Some(n)
  {
  }

  /** `Unhex` undoes `Hex`. */
  lemma {:induction false} UnhexHex(bs: seq<byte>)
    ensures Unhex(Hex(bs)) == Some(bs)
    decreases |bs|
  {
    if bs != [] {
      var h := Hex(bs);
      UnhexHex(bs[1..]);
      assert h[2..] == Hex(bs[1..]);
      var b := bs[0];
      assert h[0] == Digit(b / 16) && h[1] == Digit(b % 16);
      DigitRoundTrip(b / 16);
      DigitRoundTrip(b % 16);
      assert ByteOf(b / 16, b % 16) == b;
      assert [bs[0]] + bs[1..] == bs;
    }
  }

  /** Equal renderings come from equal digests, so comparing the hex strings compares the
      digests themselves. */
  lemma HexInjective(a: seq<byte>, b: seq<byte>)
    ensures Hex(a) == Hex(b) <==> a == b
  {
    UnhexHex(a);
    UnhexHex(b);
  }

  /** No rendering contains an upper-case letter, so the string comparison against an expected
      checksum is case-sensitive: an upper-case checksum never matches. */
  lemma HexHasNoUpperCase(bs: seq<byte>, i: int)
    requires 0 <= i < |Hex(bs)|
    ensures !('A' <= Hex(bs)[i] <= 'Z')
  {
  }
}

=== FILE: paths.dfy ===
/** Go's `path.Base` and `filepath.Join`, which name the destination file after the last
    segment of the download URL's path (cli/cmd/addon_download.go:173). `filepath.Join` joins
    with slashes and then applies `path.Clean`, the Unix behaviour. */
module Paths {
  import opened GoStrings

  /** Every character of `p` is a slash (true of the empty path). */
  predicate AllSlashes(p: string)
  {
    forall i :: 0 <= i < |p| ==> p[i] == '/'
  }

  /** The path with every trailing `/` removed. */
  function TrimTrailingSlashes(p: string): (q: string)
    ensures q <= p
    ensures q == [] <==> AllSlashes(p)
    ensures q == [] || q[|q| - 1] != '/'
    ensures forall i :: |q| <= i < |p| ==> p[i] == '/'
    decreases |p|
  {
    if |p| > 0 && p[|p| - 1] == '/' then TrimTrailingSlashes(p[..|p| - 1]) else p
  }

  /** `strings.LastIndex` for one character: the index of the last `c`, or -1. */
  function LastIndexOf(s: string, c: char): (i: int)
    ensures -1 <= i < |s|
    ensures i >= 0 ==> s[i] == c
    ensures forall j :: i < j < |s| ==> s[j] != c
    decreases |s|
  {
    if s == [] then -1
    else if s[|s| - 1] == c then |s| - 1
    else LastIndexOf(s[..|s| - 1], c)
  }

  /** `path.Base`: the last element of a slash-separated path, ignoring trailing slashes;
      "." for the empty path and "/" for a path of slashes only. */
  function Base(p: string): (b: string)
    ensures b != []
    ensures p == [] ==> b == "."
    ensures b == "/" <==> p != [] && AllSlashes(p)
    ensures b != "/" ==> '/' !in b
  {
    if p == [] then "."
    else
      var t := TrimTrailingSlashes(p);
      var i := LastIndexOf(t, '/');
      var e := if i >= 0 then t[i + 1..] else t;
      if e == [] then
        assert t == [];
        "/"
      else
        assert '/' !in e;
        e
  }

  /** A directory and a file name put together with a slash, before any cleaning; an empty
      directory is skipped, as `filepath.Join` skips empty elements. */
  function JoinPath(dir: string, name: string): string
  {
    if dir == [] then name else dir + "/" + name
  }

  /** The elements of a clean path: none empty or ".", none holding a slash, ".." only in front
      of all others and never in a rooted path. */
  predicate CleanElements(st: seq<string>, rooted: bool)
  {
    && (forall i :: 0 <= i < |st| ==> st[i] != [] && st[i] != "." && '/' !in st[i])
    && (forall i, j :: 0 <= i < j < |st| && st[j] == ".." ==> st[i] == "..")
    && (rooted ==> forall i :: 0 <= i < |st| ==> st[i] != "..")
  }

  /** One element of `path.Clean`'s pass over a path, added to the elements kept so far: an
      empty element and "." vanish; ".." drops the last kept element unless that is itself "..",
      and otherwise is kept in a relative path and vanishes at the root; any other is kept. */
  function CleanStep(st: seq<string>, e: string, rooted: bool): seq<string>
  {
    if e == [] || e == "." then st
    else if e == ".." then
      if |st| > 0 && st[|st| - 1] != ".." then st[..|st| - 1]
      else if rooted then st
      else st + [".."]
    else st + [e]
  }

  /** The elements `path.Clean` keeps of the slash-free pieces `segs`, taken left to right. */
  function Resolve(segs: seq<string>, rooted: bool): (st: seq<string>)
    requires forall i :: 0 <= i < |segs| ==> '/' !in segs[i]
    ensures CleanElements(st, rooted)
    decreases |segs|
  {
    if segs == [] then []
    else
      var prev := Resolve(segs[..|segs| - 1], rooted);
      var e := segs[|segs| - 1];
      var st := CleanStep(prev, e, rooted);
      assert e == ".." && !(|prev| > 0 && prev[|prev| - 1] != "..") ==>
               forall i :: 0 <= i < |prev| ==> prev[i] == "..";
      st
  }

  /** The path written out from its kept elements: rooted ones after "/", and "." for a
      relative path with none. */
  function Render(st: seq<string>, rooted: bool): string
  {
    if rooted then "/" + Join(st, "/")
    else if st == [] then "."
    else Join(st, "/")
  }

  /** `path.Clean`: the shortest equivalent path, by purely lexical processing. Repeated
      slashes, "." elements and each ".." with the element before it are removed; ".." at the
      root is dropped; an empty result is ".". A path is rooted exactly when it was. */
  function Clean(p: string): (c: string)
    ensures c != []
    ensures p == [] ==> c == "."
    ensures c[0] == '/' <==> p != [] && p[0] == '/'
  {
    if p == [] then "."
    else
      var rooted := p[0] == '/';
      var st := Resolve(Pieces(p, '/'), rooted);
      if rooted || st == [] then Render(st, rooted)
      else
        JoinStartsWithFirst(st, "/");
        Render(st, rooted)
  }

  /** `filepath.Join(dir, name)` for a non-empty `name`: joined, then cleaned. */
  function FileJoin(dir: string, name: string): string
  {
    Clean(JoinPath(dir, name))
  }

  /** A name without slashes is its own base, and stays the base once put under a directory. */
  lemma BaseOfName(dir: string, name: string)
    requires name != [] && '/' !in name
    ensures Base(name) == name
    ensures Base(JoinPath(dir, name)) == name
  {
    var p := JoinPath(dir, name);
    assert p[|p| - 1] == name[|name| - 1];
    assert TrimTrailingSlashes(p) == p;
    assert TrimTrailingSlashes(name) == name;
    assert LastIndexOf(name, '/') == -1;
    if dir != [] {
      var i := LastIndexOf(p, '/');
      assert p[|dir|] == '/';
      assert i == |dir|;
      assert p[i + 1..] == name;
    }
  }

  /** Trailing slashes do not change the base of a non-empty path. */
  lemma {:induction false} BaseIgnoresTrailingSlash(p: string)
    requires p != []
    ensures Base(p + "/") == Base(p)
  {
    var q := p + "/";
    assert q[..|q| - 1] == p;
    assert TrimTrailingSlashes(q) == TrimTrailingSlashes(p);
  }

  /** The base of a path is its last element, whatever comes before the final slash. */
  lemma BaseOfLastSegment(prefix: string, name: string)
    requires name != [] && '/' !in name
    ensures Base(prefix + "/" + name) == name
  {
    var p := prefix + "/" + name;
    assert p[|p| - 1] == name[|name| - 1];
    assert TrimTrailingSlashes(p) == p;
    var i := LastIndexOf(p, '/');
    assert p[|prefix|] == '/';
    assert i == |prefix|;
    assert p[i + 1..] == name;
  }

  /** Adding one more piece to a path adds one `CleanStep`. */
  lemma ResolveSnoc(segs: seq<string>, e: string, rooted: bool)
    requires forall i :: 0 <= i < |segs| ==> '/' !in segs[i]
    requires '/' !in e
    ensures Resolve(segs + [e], rooted) == CleanStep(Resolve(segs, rooted), e, rooted)
  {
  }

  /** Pieces that clean away to nothing do not affect what follows them. */
  lemma {:induction false} ResolveAfterNothing(a: seq<string>, b: seq<string>, rooted: bool)
    requires forall i :: 0 <= i < |a| ==> '/' !in a[i]
    requires forall i :: 0 <= i < |b| ==> '/' !in b[i]
    requires Resolve(a, rooted) == []
    ensures Resolve(a + b, rooted) == Resolve(b, rooted)
    decreases |b|
  {
    if b == [] {
      assert a + b == a;
    } else {
      var b' := b[..|b| - 1];
      ResolveAfterNothing(a, b', rooted);
      assert (a + b)[..|a + b| - 1] == a + b';
    }
  }

  /** Clean elements are kept exactly as they are. */
  lemma {:induction false} ResolveClean(st: seq<string>, rooted: bool)
    requires CleanElements(st, rooted)
    ensures Resolve(st, rooted) == st
    decreases |st|
  {
    if st != [] {
      var prev := st[..|st| - 1];
      var last := st[|st| - 1];
      assert prev + [last] == st;
      assert CleanElements(prev, rooted);
      ResolveClean(prev, rooted);
      ResolveSnoc(prev, last, rooted);
      assert CleanStep(prev, last, rooted) == prev + [last];
    }
  }

  /** "." is clean. */
  lemma CleanOfDot()
    ensures Clean(".") == "."
  {
    PiecesOfPlain(".", '/');
    ResolveSnoc([], ".", false);
  }

  /** "/" is clean. */
  lemma CleanOfRoot()
    ensures Clean("/") == "/"
  {
    var none: string := [];
    PiecesOfSlash();
    ResolveSnoc([], none, true);
    ResolveSnoc([none], none, true);
    assert [none] + [none] == [none, none];
  }

  /** A relative path written from clean elements is clean. */
  lemma CleanOfRelative(st: seq<string>)
    requires st != [] && CleanElements(st, false)
    ensures Clean(Join(st, "/")) == Join(st, "/")
  {
    var c := Join(st, "/");
    JoinStartsWithFirst(st, "/");
    assert c[0] == st[0][0];
    SplitJoin(st, '/');
    assert Pieces(c, '/') == st;
    ResolveClean(st, false);
  }

  /** A rooted path written from clean elements is clean. */
  lemma CleanOfRooted(st: seq<string>)
    requires CleanElements(st, true)
    ensures Clean("/" + Join(st, "/")) == "/" + Join(st, "/")
  {
    var j := Join(st, "/");
    if st == [] {
      CleanOfRoot();
      assert "/" + j == "/";
    } else {
      var none: string := [];
      assert "/" + j == none + ['/'] + j;
      PiecesAppend(none, j, '/');
      SplitJoin(st, '/');
      assert Pieces(j, '/') == st;
      assert Pieces(none, '/') == [none];
      ResolveSnoc([], none, true);
      ResolveAfterNothing([none], st, true);
      ResolveClean(st, true);
    }
  }

  /** Cleaning a clean path changes nothing. */
  lemma CleanIdempotent(p: string)
    ensures Clean(Clean(p)) == Clean(p)
  {
    if p == [] {
      CleanOfDot();
    } else {
      var rooted := p[0] == '/';
      var st := Resolve(Pieces(p, '/'), rooted);
      assert Clean(p) == Render(st, rooted);
      if rooted {
        CleanOfRooted(st);
      } else if st == [] {
        CleanOfDot();
      } else {
        CleanOfRelative(st);
      }
    }
  }

  /** The pieces of "/" are two empty ones. */
  lemma PiecesOfSlash()
    ensures Pieces("/", '/') == [[], []]
  {
    PiecesCons('/', [], '/');
    assert "/" == ['/'] + [];
  }

  /** Splitting a directory and one more slash-free name at their joining slash. */
  lemma PiecesJoinPath(dir: string, name: string)
    requires '/' !in name
    ensures Pieces(dir + "/" + name, '/') == Pieces(dir, '/') + [name]
  {
    PiecesAppend(dir, name, '/');
    PiecesOfPlain(name, '/');
  }

  /** Writing out one more plain element after the kept ones. */
  lemma RenderSnoc(st: seq<string>, name: string, rooted: bool)
    ensures Render(st + [name], rooted) ==
              if Render(st, rooted) == "." then name
              else if Render(st, rooted) == "/" then "/" + name
              else Render(st, rooted) + "/" + name
    requires CleanElements(st, rooted)
    requires name != "." && name != []
  {
    JoinSnoc(st, name, "/");
    if st != [] {
      JoinStartsWithFirst(st, "/");
      assert Join(st, "/")[0] == st[0][0];
      assert |Join(st, "/")| >= |st[0]|;
      if !rooted {
        assert Join(st, "/") != "." && Join(st, "/") != "/";
      } else {
        assert "/" + Join(st, "/") != "/";
      }
    }
  }

  /** A file name under a directory is the cleaned directory with the name appended: "."
      leaves the bare name, "/" the rooted name. */
  lemma CleanJoinName(dir: string, name: string)
    requires dir != []
    requires name != [] && '/' !in name && name != "." && name != ".."
    ensures Clean(dir + "/" + name) ==
              if Clean(dir) == "." then name
              else if Clean(dir) == "/" then "/" + name
              else Clean(dir) + "/" + name
  {
    var p := dir + "/" + name;
    var rooted := dir[0] == '/';
    assert p[0] == dir[0];
    var segs := Pieces(dir, '/');
    PiecesJoinPath(dir, name);
    ResolveSnoc(segs, name, rooted);
    RenderSnoc(Resolve(segs, rooted), name, rooted);
  }

  /** An inner ".." removes exactly the one element before it: a name and then ".." under a
      directory clean back to the directory. */
  lemma CleanDropsParent(dir: string, name: string)
    requires dir != []
    requires name != [] && '/' !in name && name != "." && name != ".."
    ensures Clean(dir + "/" + name + "/" + "..") == Clean(dir)
  {
    var q := dir + "/" + name;
    var p := q + "/" + "..";
    var rooted := dir[0] == '/';
    assert p[0] == dir[0];
    var segs := Pieces(dir, '/');
    PiecesJoinPath(dir, name);
    PiecesJoinPath(q, "..");
    ResolveSnoc(segs, name, rooted);
    ResolveSnoc(segs + [name], "..", rooted);
    var st := Resolve(segs, rooted);
    assert (st + [name])[..|st + [name]| - 1] == st;
  }

  /** A trailing "." or "/" element cleans away: the path names the directory itself. */
  lemma CleanIgnoresDotAndSlash(dir: string)
    requires dir != []
    ensures Clean(dir + "/" + ".") == Clean(dir)
    ensures Clean(dir + "/" + "/") == Clean(dir)
  {
    var rooted := dir[0] == '/';
    var segs := Pieces(dir, '/');
    assert (dir + "/" + ".")[0] == dir[0];
    PiecesJoinPath(dir, ".");
    ResolveSnoc(segs, ".", rooted);
    var none: string := [];
    assert (dir + "/" + "/")[0] == dir[0];
    PiecesAppend(dir, "/", '/');
    PiecesOfSlash();
    assert Pieces(dir + "/" + "/", '/') == segs + [none] + [none];
    ResolveSnoc(segs, none, rooted);
    ResolveSnoc(segs + [none], none, rooted);
  }
}

=== FILE: strings.dfy ===
/** The parts of Go's `strings` package the command relies on: `Split` with a one-character
    separator (the reference parser) and `Join` (the reference layout and the team listing). */
module GoStrings {

  /** Number of occurrences of `c` in `s`. */
  function Count(s: string, c: char): nat
  {
    if s == [] then 0 else (if s[0] == c then 1 else 0) + Count(s[1..], c)
  }

  /** `strings.Join`: the parts in order with `sep` between consecutive ones. */
  function Join(parts: seq<string>, sep: string): string
  {
    if parts == [] then ""
    else if |parts| == 1 then parts[0]
    else parts[0] + sep + Join(parts[1..], sep)
  }

  /** `a` occurs in `b` as a contiguous substring. */
  ghost predicate IsInfix(a: string, b: string)
  {
    exists k :: OccursAt(a, b, k)
  }

  /** `a` occurs in `b` starting at index `k`. */
  predicate OccursAt(a: string, b: string, k: int)
  {
    0 <= k && k + |a| <= |b| && b[k..k + |a|] == a
  }

  /** The pieces of `s` between occurrences of `sep`, left to right: the recursion behind
      `Split`, with only the facts its own recursion needs. */
  function Pieces(s: string, sep: char): (parts: seq<string>)
    ensures |parts| >= 1
    ensures forall i :: 0 <= i < |parts| ==> sep !in parts[i]
    decreases |s|
  {
    if s == [] then [[]]
    else
      var rest := Pieces(s[1..], sep);
      if s[0] == sep then [[]] + rest else [[s[0]] + rest[0]] + rest[1..]
  }

  /** `strings.Split(s, sep)` for a one-character separator: the maximal separator-free pieces
      of `s`, one more than there are separators, which `Join` glues back into `s`. */
  function Split(s: string, sep: char): (parts: seq<string>)
    ensures |parts| == Count(s, sep) + 1
    ensures forall i :: 0 <= i < |parts| ==> sep !in parts[i]
    ensures Join(parts, [sep]) == s
  {
    PiecesCountAndJoin(s, sep);
    Pieces(s, sep)
  }

  /** The pieces are one more than the separators, and joining them gives back `s`. */
  lemma {:induction false} PiecesCountAndJoin(s: string, sep: char)
    ensures |Pieces(s, sep)| == Count(s, sep) + 1
    ensures Join(Pieces(s, sep), [sep]) == s
    decreases |s|
  {
    if s != [] {
      PiecesCountAndJoin(s[1..], sep);
      CountAndJoinStep(s[0], s[1..], sep);
      assert [s[0]] + s[1..] == s;
    }
  }

  /** The inductive step of `PiecesCountAndJoin`: one more leading character `c`. */
  lemma CountAndJoinStep(c: char, t: string, sep: char)
    requires |Pieces(t, sep)| == Count(t, sep) + 1
    requires Join(Pieces(t, sep), [sep]) == t
    ensures |Pieces([c] + t, sep)| == Count([c] + t, sep) + 1
    ensures Join(Pieces([c] + t, sep), [sep]) == [c] + t
  {
    assert ([c] + t)[0] == c && ([c] + t)[1..] == t;
    PiecesCons(c, t, sep);
    var rest := Pieces(t, sep);
    if c == sep {
      assert ([[]] + rest)[1..] == rest;
    } else {
      JoinConsFirst([c], rest, [sep]);
    }
  }

  /** Prefixing the first part prefixes the joined string. */
  lemma JoinConsFirst(c: string, parts: seq<string>, sep: string)
    requires parts != []
    ensures Join([c + parts[0]] + parts[1..], sep) == c + Join(parts, sep)
  {
    var q := [c + parts[0]] + parts[1..];
    if |parts| > 1 {
      assert q[1..] == parts[1..];
    }
  }

  /** A string without the separator is a single piece. */
  lemma {:induction false} PiecesOfPlain(p: string, sep: char)
    requires sep !in p
    ensures Pieces(p, sep) == [p]
    decreases |p|
  {
    if p != [] {
      assert sep !in p[1..];
      PiecesOfPlain(p[1..], sep);
      assert [p[0]] + p[1..] == p;
    }
  }

  /** Splitting at a separator between `a` and `b` gives the pieces of `a` followed by those of `b`. */
  lemma {:induction false} PiecesAppend(a: string, b: string, sep: char)
    ensures Pieces(a + [sep] + b, sep) == Pieces(a, sep) + Pieces(b, sep)
    decreases |a|
  {
    if a == [] {
      assert a + [sep] + b == [sep] + b;
      PiecesCons(sep, b, sep);
    } else {
      PiecesAppend(a[1..], b, sep);
      PiecesAppendStep(a[0], a[1..], b, sep);
      assert [a[0]] + a[1..] == a;
      assert [a[0]] + (a[1..] + [sep] + b) == a + [sep] + b;
    }
  }

  /** The inductive step of `PiecesAppend`: one more leading character `c`. */
  lemma PiecesAppendStep(c: char, a: string, b: string, sep: char)
    requires Pieces(a + [sep] + b, sep) == Pieces(a, sep) + Pieces(b, sep)
    ensures Pieces([c] + (a + [sep] + b), sep) == Pieces([c] + a, sep) + Pieces(b, sep)
  {
    PiecesCons(c, a + [sep] + b, sep);
    PiecesCons(c, a, sep);
    if c != sep {
      ConsFirst([c], Pieces(a, sep), Pieces(b, sep));
    }
  }

  /** `Pieces` of a string with a known first character. */
  lemma PiecesCons(c: char, t: string, sep: char)
    ensures c == sep ==> Pieces([c] + t, sep) == [[]] + Pieces(t, sep)
    ensures c != sep ==> Pieces([c] + t, sep) == [[c] + Pieces(t, sep)[0]] + Pieces(t, sep)[1..]
  {
    assert ([c] + t)[1..] == t;
  }

  /** Prefixing the first element of a non-empty `xs` commutes with appending `ys`. */
  lemma ConsFirst(c: string, xs: seq<string>, ys: seq<string>)
    requires xs != []
    ensures [c + (xs + ys)[0]] + (xs + ys)[1..] == ([c + xs[0]] + xs[1..]) + ys
  {
    assert (xs + ys)[0] == xs[0];
    assert (xs + ys)[1..] == xs[1..] + ys;
  }

  /** One step of `Pieces`: the first character either ends an empty piece or starts the first. */
  lemma PiecesUnfold(s: string, sep: char)
    requires s != []
    ensures s[0] == sep ==> Pieces(s, sep) == [[]] + Pieces(s[1..], sep)
    ensures s[0] != sep ==>
              Pieces(s, sep) == [[s[0]] + Pieces(s[1..], sep)[0]] + Pieces(s[1..], sep)[1..]
  {
  }

  /** Joining and splitting back: a leading piece without separators comes back on its own. */
  lemma SplitCons(p: string, t: string, sep: char)
    requires sep !in p
    ensures Split(p + [sep] + t, sep) == [p] + Split(t, sep)
  {
    PiecesAppend(p, t, sep);
    PiecesOfPlain(p, sep);
  }

  /** `Split` inverts `Join` on separator-free pieces. */
  lemma {:induction false} SplitJoin(parts: seq<string>, sep: char)
    requires |parts| >= 1
    requires forall i :: 0 <= i < |parts| ==> sep !in parts[i]
    ensures Split(Join(parts, [sep]), sep) == parts
    decreases |parts|
  {
    if |parts| == 1 {
      var p := parts[0];
      var r := Split(p, sep);
      CountAbsent(p, sep);
      assert |r| == 1;
      assert Join(r, [sep]) == r[0];
    } else {
      SplitJoin(parts[1..], sep);
      SplitCons(parts[0], Join(parts[1..], [sep]), sep);
      assert [parts[0]] + parts[1..] == parts;
    }
  }

  /** A character that does not occur is counted zero times. */
  lemma {:induction false} CountAbsent(s: string, c: char)
    requires c !in s
    ensures Count(s, c) == 0
    decreases |s|
  {
    if s != [] {
      assert c !in s[1..];
      CountAbsent(s[1..], c);
    }
  }

  /** Every part occurs in its `Join`, whatever the separator: the joined string names them all. */
  lemma {:induction false} JoinNamesEveryPart(parts: seq<string>, sep: string)
    ensures forall i :: 0 <= i < |parts| ==> IsInfix(parts[i], Join(parts, sep))
    decreases |parts|
  {
    if |parts| == 1 {
      assert OccursAt(parts[0], Join(parts, sep), 0);
    } else if |parts| > 1 {
      var j := Join(parts, sep);
      var tail := Join(parts[1..], sep);
      JoinNamesEveryPart(parts[1..], sep);
      assert j == parts[0] + sep + tail;
      assert OccursAt(parts[0], j, 0);
      forall i | 1 <= i < |parts|
        ensures IsInfix(parts[i], j)
      {
        assert parts[i] == parts[1..][i - 1];
        var k :| OccursAt(parts[i], tail, k);
        var off := |parts[0]| + |sep|;
        assert j[off + k..off + k + |parts[i]|] == tail[k..k + |parts[i]|];
        assert OccursAt(parts[i], j, off + k);
      }
    }
  }

  /** Joining one more part appends the separator and the part. */
  lemma {:induction false} JoinSnoc(parts: seq<string>, s: string, sep: string)
    ensures Join(parts + [s], sep) == if parts == [] then s else Join(parts, sep) + sep + s
    decreases |parts|
  {
    if |parts| > 1 {
      assert (parts + [s])[1..] == parts[1..] + [s];
      JoinSnoc(parts[1..], s, sep);
    } else if |parts| == 1 {
      assert (parts + [s])[1..] == [s];
    }
  }

  /** The joined string starts with the first part. */
  lemma JoinStartsWithFirst(parts: seq<string>, sep: string)
    requires |parts| >= 1
    ensures parts[0] <= Join(parts, sep)
  {
  }
}

=== FILE: team.dfy ===
/** `getTeamForAnyToken` (cli/cmd/addon_download.go:121-148): which team the download is
    scoped to. The config lookup and the team listing are calls into code this model does not
    see, so their results are inputs. */
module Teams {
  import opened Wrappers
  import opened GoStrings
  import opened Errors

  /** The kind of auth token in use; any other value of the Go enum is `OtherToken`. */
  datatype TokenType = BearerToken | APIKey | OtherToken(code: int)

  /** The error `config.GetValue("team")` returned alongside its value. */
  datatype ConfigError = NoConfigError | ConfigNotExist | ConfigFailure(cause: string)

  /** What `config.GetValue("team")` returned: the value and the error, as in Go. */
  datatype ConfigLookup = ConfigLookup(value: string, err: ConfigError)

  /** Separator of the team listing in the "more than one team" error. */
  const TeamListSeparator: string := ", "

  /** A bearer token takes the team from the config, where a not-exist error is no error but an
      empty team is; an API key takes the one team it is assigned, refusing none or several;
      any other token type is refused. Each input is consulted only for its own token type. */
  function GetTeamForAnyToken(tokenType: TokenType, config: ConfigLookup,
                              teams: Result<seq<string>, string>): (r: Result<string, Error>)
    ensures r.Success? ==>
              || (tokenType == BearerToken && r.value == config.value && r.value != "")
              || (tokenType == APIKey && teams == Success([r.value]))
    ensures tokenType == BearerToken ==>
              (r.Success? <==> !config.err.ConfigFailure? && config.value != "")
    ensures tokenType == BearerToken && config.err.ConfigFailure? ==>
              r == Failure(ConfigReadFailed(config.err.cause))
    ensures r == Failure(TeamRequired) <==>
              tokenType == BearerToken && !config.err.ConfigFailure? && config.value == ""
    ensures tokenType == APIKey ==> (r.Success? <==> teams.Success? && |teams.value| == 1)
    ensures tokenType == APIKey && teams.Failure? ==> r == Failure(TeamListFailed(teams.error))
    ensures r == Failure(NoAssignedTeam) <==> tokenType == APIKey && teams == Success([])
    ensures tokenType == APIKey && teams.Success? && |teams.value| >= 2 ==>
              && r == Failure(MoreThanOneTeam(Join(teams.value, TeamListSeparator)))
              && forall i :: 0 <= i < |teams.value| ==> IsInfix(teams.value[i], r.error.listed)
    ensures tokenType.OtherToken? ==> r == Failure(UnknownTokenType(tokenType.code))
  {
    match tokenType
    case BearerToken =>
      if config.err.ConfigFailure? then Failure(ConfigReadFailed(config.err.cause))
      else if config.value == "" then Failure(TeamRequired)
      else Success(config.value)
    case APIKey =>
      (match teams
       case Failure(e) => Failure(TeamListFailed(e))
       case Success(ts) =>
         if |ts| == 0 then Failure(NoAssignedTeam)
         else if |ts| == 1 then
           assert ts == [ts[0]];
           Success(ts[0])
         else
           JoinNamesEveryPart(ts, TeamListSeparator);
           Failure(MoreThanOneTeam(Join(ts, TeamListSeparator))))
    case OtherToken(code) => Failure(UnknownTokenType(code))
  }

  /** A missing config entry is treated like an empty one: with no team value, not-exist and no
      error alike give "team is required", while any other error is reported as such. */
  lemma NotExistIsLikeUnset(teams: Result<seq<string>, string>)
    ensures GetTeamForAnyToken(BearerToken, ConfigLookup("", ConfigNotExist), teams)
              == GetTeamForAnyToken(BearerToken, ConfigLookup("", NoConfigError), teams)
              == Failure(TeamRequired)
  {
  }
}

=== FILE: transfer.dfy ===
/** `downloadAddonFromResponse` (cli/cmd/addon_download.go:162-215): choose the sink, refuse an
    existing destination, copy the body into the sink and the digest together, close, compare
    the checksum, and remove the file again on any error.

    The filesystem, standard output and standard error are an explicit `World`. SHA-256 is the
    parameter `sha`; its `%x` rendering is `Hex`. Whether creating, copying, closing or removing
    fails is decided by the `Faults` oracle, since those depend on the operating system. */
module Transfer {
  import opened Wrappers
  import opened Bytes
  import opened HexEncoding
  import opened Paths
  import opened Errors

  datatype Entry = File(content: seq<byte>) | Directory

  /** A line on standard error: "Wrote <size> bytes to <path>". */
  datatype Report = Wrote(size: nat, path: string)

  datatype World = World(fs: map<string, Entry>, stdout: seq<byte>, stderr: seq<Report>)

  /** A download response: the path of the URL it was finally fetched from, and its body as the
      successive chunks reading it returns. */
  datatype Response = Response(urlPath: string, chunks: seq<seq<byte>>)

  /** Which operating-system calls fail. `copyFault == Some(k)`: the copy fails (a read or a
      write error) once the first `k` bytes of the body have reached the sink. */
  datatype Faults = Faults(createFails: bool, copyFault: Option<nat>, sinkCloseFails: bool,
                           bodyCloseFails: bool, removeFails: bool)

  /** What the copy did: the bytes the sink received, the bytes the digest received, and
      whether it ended without error. */
  datatype Copied = Copied(written: seq<byte>, hashed: seq<byte>, ok: bool)

  datatype Done = Done(world: World, outcome: Outcome<Error>)

  /** The target that selects standard output instead of a directory. */
  const StdoutTarget: string := "-"

  /** The whole body: the chunks one after another. */
  function Body(chunks: seq<seq<byte>>): seq<byte>
  {
    if chunks == [] then [] else chunks[0] + Body(chunks[1..])
  }

  function Min(a: nat, b: nat): nat
  {
    if a <= b then a else b
  }

  /** How much of `body` reaches the sink under the copy fault. */
  function Reached(body: seq<byte>, fault: Option<nat>): nat
  {
    match fault
    case None => |body|
    case Some(k) => Min(k, |body|)
  }

  /** `io.Copy` into `io.MultiWriter(sink, sha)` (line 198): each read is written to the sink
      and then to the digest before the next read. The sink receives the body up to the fault;
      the digest receives a prefix of that, and the whole body when the copy succeeds. */
  function Copy(chunks: seq<seq<byte>>, fault: Option<nat>): (c: Copied)
    ensures c.ok <==> fault.None?
    ensures c.written == Body(chunks)[..Reached(Body(chunks), fault)]
    ensures c.hashed <= c.written
    ensures c.ok ==> c.hashed == Body(chunks)
    decreases |chunks|
  {
    if chunks == [] then Copied([], [], fault.None?)
    else
      var chunk := chunks[0];
      if fault.Some? && fault.value < |chunk| then
        Copied(chunk[..fault.value], [], false)
      else
        var rest := Copy(chunks[1..], if fault.Some? then Some(fault.value - |chunk|) else None);
        var body := Body(chunks);
        assert body == chunk + Body(chunks[1..]);
        assert chunk + rest.written == body[..Reached(body, fault)];
        Copied(chunk + rest.written, chunk + rest.hashed, rest.ok)
  }

  /** The file a non-stdout download writes: `filepath.Join` of `targetDir` and the last
      segment of the URL path (line 173). Paths in the `World` are clean paths. */
  function Destination(targetDir: string, res: Response): string
  {
    FileJoin(targetDir, Base(res.urlPath))
  }

  /** The sink gets opened: standard output always; a file when nothing is in its place and
      creating it succeeds (lines 169-185). */
  predicate SinkOpened(w: World, res: Response, targetDir: string, f: Faults)
  {
    targetDir == StdoutTarget || (Destination(targetDir, res) !in w.fs && !f.createFails)
  }

  /** Lines 198-212, once the sink is open: the copy, the two closes and the checksum
      comparison, first failure wins. */
  function Finish(c: Copied, f: Faults, expected: string, sha: seq<byte> -> seq<byte>): Outcome<Error>
  {
    if !c.ok then Fail(WriteFailed)
    else if f.sinkCloseFails then Fail(CloseFailed)
    else if f.bodyCloseFails then Fail(BodyCloseFailed)
    else
      var got := Hex(sha(c.hashed));
      if got != expected then Fail(ChecksumMismatch(expected, got)) else Pass
  }

  /** The deferred handler of lines 187-193: on an error the file is removed (the removal's own
      error is ignored); on success the size is reported on standard error. */
  function Deferred(w: World, path: string, size: nat, outcome: Outcome<Error>, removeFails: bool): World
  {
    if outcome.Fail? then
      if removeFails then w else w.(fs := w.fs - {path})
    else
      w.(stderr := w.stderr + [Wrote(size, path)])
  }

  /** Downloads the response into standard output or into a new file in `targetDir`.
      It succeeds exactly when the sink opens, nothing fails, and the `%x` of the digest of the
      body equals `expected`. A committed file holds exactly the body; on any error after the
      file was created it is removed again, so the world is as before unless the removal itself
      fails. An existing destination is refused without touching anything. */
  function DownloadAddonFromResponse(w: World, res: Response, expected: string, targetDir: string,
                                     f: Faults, sha: seq<byte> -> seq<byte>): (d: Done)
    // the destination-exists guard leaves everything as it was
    ensures targetDir != StdoutTarget && Destination(targetDir, res) in w.fs ==>
              d == Done(w, Fail(DestinationExists(Destination(targetDir, res),
                                                  w.fs[Destination(targetDir, res)].Directory?)))
    ensures targetDir != StdoutTarget && Destination(targetDir, res) !in w.fs && f.createFails ==>
              d == Done(w, Fail(CreateFailed(Destination(targetDir, res))))
    // success exactly when the sink opens, nothing fails, and the digest matches
    ensures d.outcome.Pass? <==>
              && SinkOpened(w, res, targetDir, f)
              && f.copyFault.None? && !f.sinkCloseFails && !f.bodyCloseFails
              && Hex(sha(Body(res.chunks))) == expected
    // which error, once the sink is open
    ensures SinkOpened(w, res, targetDir, f) ==>
              (d.outcome == Fail(WriteFailed) <==> f.copyFault.Some?)
    ensures SinkOpened(w, res, targetDir, f) && f.copyFault.None? ==>
              (d.outcome == Fail(CloseFailed) <==> f.sinkCloseFails)
    ensures SinkOpened(w, res, targetDir, f) && f.copyFault.None? && !f.sinkCloseFails ==>
              (d.outcome == Fail(BodyCloseFailed) <==> f.bodyCloseFails)
    ensures && SinkOpened(w, res, targetDir, f)
            && f.copyFault.None? && !f.sinkCloseFails && !f.bodyCloseFails
            && Hex(sha(Body(res.chunks))) != expected ==>
              d.outcome == Fail(ChecksumMismatch(expected, Hex(sha(Body(res.chunks)))))
    ensures d.outcome.Fail? && d.outcome.error.ChecksumMismatch? ==>
              && d.outcome.error == ChecksumMismatch(expected, Hex(sha(Body(res.chunks))))
              && expected != Hex(sha(Body(res.chunks)))
    // a committed file holds exactly the body, and its size is reported
    ensures targetDir != StdoutTarget && d.outcome.Pass? ==>
              d.world == w.(fs := w.fs[Destination(targetDir, res) := File(Body(res.chunks))],
                            stderr := w.stderr + [Wrote(|Body(res.chunks)|, Destination(targetDir, res))])
    // rollback: a failed file download leaves the world as it was, unless removal fails, in
    // which case only the bytes that reached the file are left behind
    ensures targetDir != StdoutTarget && d.outcome.Fail? && !f.removeFails ==> d.world == w
    ensures targetDir != StdoutTarget && d.outcome.Fail? ==>
              || d.world == w
              || d.world == w.(fs := w.fs[Destination(targetDir, res) :=
                                 File(Body(res.chunks)[..Reached(Body(res.chunks), f.copyFault)])])
    // standard output: no file is touched and nothing is reported; the body, up to the copy
    // fault, is appended to what was already written
    ensures targetDir == StdoutTarget ==>
              d.world == w.(stdout := w.stdout + Body(res.chunks)[..Reached(Body(res.chunks), f.copyFault)])
  {
    if targetDir == StdoutTarget then
      var c := Copy(res.chunks, f.copyFault);
      Done(w.(stdout := w.stdout + c.written), Finish(c, f, expected, sha))
    else
      var path := Destination(targetDir, res);
      if path in w.fs then
        Done(w, Fail(DestinationExists(path, w.fs[path].Directory?)))
      else if f.createFails then
        Done(w, Fail(CreateFailed(path)))
      else
        var c := Copy(res.chunks, f.copyFault);
        var written := w.(fs := w.fs[path := File(c.written)]);
        var outcome := Finish(c, f, expected, sha);
        assert outcome.Pass? ==> c.written == Body(res.chunks);
        assert outcome.Fail? && !f.removeFails ==> written.(fs := written.fs - {path}) == w by {
          assert w.fs[path := File(c.written)] - {path} == w.fs;
        }
        Done(Deferred(written, path, |c.written|, outcome, f.removeFails), outcome)
  }

  /** The digest is taken over exactly the bytes the file holds: a committed file's `%x` digest
      is the expected checksum. */
  lemma CommittedFileMatchesChecksum(w: World, res: Response, expected: string, targetDir: string,
                                     f: Faults, sha: seq<byte> -> seq<byte>)
    requires targetDir != StdoutTarget
    requires DownloadAddonFromResponse(w, res, expected, targetDir, f, sha).outcome.Pass?
    ensures var fs := DownloadAddonFromResponse(w, res, expected, targetDir, f, sha).world.fs;
            && Destination(targetDir, res) in fs
            && fs[Destination(targetDir, res)].File?
            && Hex(sha(fs[Destination(targetDir, res)].content)) == expected
  {
  }

  /** The comparison is case-sensitive: an expected checksum with an upper-case letter never
      lets a download commit. */
  lemma UpperCaseChecksumNeverCommits(w: World, res: Response, expected: string, targetDir: string,
                                      f: Faults, sha: seq<byte> -> seq<byte>, i: int)
    requires 0 <= i < |expected| && 'A' <= expected[i] <= 'Z'
    ensures DownloadAddonFromResponse(w, res, expected, targetDir, f, sha).outcome.Fail?
  {
    var got := Hex(sha(Body(res.chunks)));
    if got == expected {
      HexHasNoUpperCase(sha(Body(res.chunks)), i);
    }
  }

  /** The destination guard: downloading the same URL into the same directory a second time
      fails, reports a file (not a directory), and changes nothing. */
  lemma SecondDownloadRefused(w: World, res: Response, expected: string, targetDir: string,
                              f: Faults, sha: seq<byte> -> seq<byte>,
                              res2: Response, expected2: string, f2: Faults)
    requires targetDir != StdoutTarget
    requires DownloadAddonFromResponse(w, res, expected, targetDir, f, sha).outcome.Pass?
    requires res2.urlPath == res.urlPath
    ensures var w1 := DownloadAddonFromResponse(w, res, expected, targetDir, f, sha).world;
            DownloadAddonFromResponse(w1, res2, expected2, targetDir, f2, sha)
              == Done(w1, Fail(DestinationExists(Destination(targetDir, res), false)))
  {
  }

  /** After a rolled-back download nothing is left at the destination, so a retry behaves
      exactly like the first attempt. */
  lemma RetryAfterRollback(w: World, res: Response, expected: string, targetDir: string,
                           f: Faults, sha: seq<byte> -> seq<byte>, f2: Faults)
    requires targetDir != StdoutTarget && !f.removeFails
    requires DownloadAddonFromResponse(w, res, expected, targetDir, f, sha).outcome.Fail?
    ensures var w1 := DownloadAddonFromResponse(w, res, expected, targetDir, f, sha).world;
            && (Destination(targetDir, res) in w1.fs <==> Destination(targetDir, res) in w.fs)
            && DownloadAddonFromResponse(w1, res, expected, targetDir, f2, sha)
                 == DownloadAddonFromResponse(w, res, expected, targetDir, f2, sha)
  {
  }

  /** A body whose digest differs from the expected checksum, by as little as one character,
      leaves no file behind and reports both values. */
  lemma MismatchRemovesFile(w: World, res: Response, expected: string, targetDir: string,
                            f: Faults, sha: seq<byte> -> seq<byte>)
    requires targetDir != StdoutTarget && SinkOpened(w, res, targetDir, f)
    requires f.copyFault.None? && !f.sinkCloseFails && !f.bodyCloseFails && !f.removeFails
    requires Hex(sha(Body(res.chunks))) != expected
    ensures var d := DownloadAddonFromResponse(w, res, expected, targetDir, f, sha);
            && d.outcome == Fail(ChecksumMismatch(expected, Hex(sha(Body(res.chunks)))))
            && Destination(targetDir, res) !in d.world.fs
  {
  }

  /** A URL path that is empty, only slashes, or whose last element is "." has no file name:
      `path.Base` gives "." or "/", and the destination is the target directory itself. So an
      existing target directory makes the download fail as "is a directory" and changes
      nothing. */
  lemma DirectoryURLRefused(w: World, res: Response, expected: string, targetDir: string,
                            f: Faults, sha: seq<byte> -> seq<byte>)
    requires targetDir != StdoutTarget && targetDir != []
    requires Base(res.urlPath) == "/" || Base(res.urlPath) == "."
    requires Clean(targetDir) in w.fs && w.fs[Clean(targetDir)].Directory?
    ensures DownloadAddonFromResponse(w, res, expected, targetDir, f, sha)
              == Done(w, Fail(DestinationExists(Clean(targetDir), true)))
  {
    CleanIgnoresDotAndSlash(targetDir);
    assert Destination(targetDir, res) == Clean(targetDir);
  }

  /** A URL path ending in a file name puts the file, under that name, in the cleaned target
      directory. */
  lemma DestinationIsNameInDirectory(targetDir: string, prefix: string, name: string,
                                     chunks: seq<seq<byte>>)
    requires targetDir != []
    requires name != [] && '/' !in name && name != "." && name != ".."
    ensures Destination(targetDir, Response(prefix + "/" + name, chunks)) ==
              if Clean(targetDir) == "." then name
              else if Clean(targetDir) == "/" then "/" + name
              else Clean(targetDir) + "/" + name
  {
    BaseOfLastSegment(prefix, name);
    CleanJoinName(targetDir, name);
  }

  /** The `-` target has no pre-flight check: its outcome does not depend on the filesystem. */
  lemma StdoutIgnoresFilesystem(w: World, w2: World, res: Response, expected: string,
                                f: Faults, sha: seq<byte> -> seq<byte>)
    ensures DownloadAddonFromResponse(w, res, expected, StdoutTarget, f, sha).outcome
              == DownloadAddonFromResponse(w2, res, expected, StdoutTarget, f, sha).outcome
  {
  }
}

=== FILE: wrappers.dfy ===
/** Failure-carrying datatypes used in place of Go's `(value, error)` returns. */
module Wrappers {

  /** An optional value: a nil pointer or an absent error is `None`. */
  datatype Option<+T> = None | Some(value: T)

  /** A value or an error, as returned by a Go function of shape `(T, error)`. */
  datatype Result<+T, +E> = Success(value: T) | Failure(error: E)

  /** The outcome of a Go function that returns only `error`. */
  datatype Outcome<+E> = Pass | Fail(error: E)
}
